=== FILE: README.md ===
# ffmpeg-nmlz, modelled in Dafny

ffmpeg-nmlz is a command-line tool that normalises the loudness of audio files with FFmpeg.
For each input file it asks FFmpeg's `volumedetect` filter for the peak level (`max_volume`,
in dB). It then re-encodes the file with a `volume` filter whose gain is `max(abs(peak), 0)`,
written with one decimal. For a peak at or below 0 dB this lifts it to 0 dB; a peak above 0 dB is
raised further by its own amount.
The output goes to an output directory as `<stem>-1.<extension>`.

The command-line inputs mix two kinds of item:
- presets such as `aac`, `opus192` or `flac` choose the encoder, the extension and the bitrate;
- everything else is a file path or a glob pattern.

A legacy WAV-only entry point (`main.py`) normalises each file named on its command line and always
writes 16-bit PCM WAV.

The project models the core of both entry points.

- `PurePaths` (pure_paths.dfy) covers the part of `pathlib` the tool relies on:
  - a path is a flag for "absolute" plus its non-empty components;
  - `Str`, `Name`, `Parent`, `Stem` and `Suffix` follow pathlib's rules, and `Child` is the `/`
    operator for a name without `/` (the only kind of name the model proves things about);
  - `Resolve` joins a relative path onto the working directory.
- `Presets` (presets.dfy) holds the preset table, the `([a-zA-Z]+)(\d+)?` full match, and the
  decision whether an input item is a preset.
  - The regular expression's letter group is greedy. `mp3` splits as `mp` + `3` and `m4a` does not
    match at all.
  - So the table rows for `mp3` and `m4a` can never be selected, and those items are treated as file
    patterns. The model follows the code here, and `Presets.Mp3AndM4aUnreachable` proves it.
- `PathResolver` (path_resolver.dfy) models input expansion:
  - each pattern with `*` or `?` is globbed and must match at least one file;
  - every file is resolved strictly and opened;
  - duplicates are removed, keeping first-occurrence order.
  - The filesystem is represented by two functions passed as parameters: `glob` and `probe`.
- `ArgumentResolver` (argument_resolver.dfy) models `verify_and_prepare_args`:
  - the preset loop, where the last recognised preset wins and the default is `wav`;
  - the `--extension` override;
  - the order in which the three kinds of error are raised.
- `Encoding` (encoding.dfy) models:
  - the output-path rule;
  - the target gain `max(abs(v), 0)`;
  - the FFmpeg argument list of the encode run;
  - the per-file loop of `do_normalizing`, which yields, for each input, the argument list of its
    encode run.
- `LegacyWav` (legacy_wav.dfy) models `main.py`:
  - `get_path` with its default-output and collision rules;
  - the `.wav` guard of `ffmpeg_convert_to_wav` and its argument list;
  - `normalize`.

## Model

| member | source | states |
|---|---|---|
| PurePaths.Parse | ffmpeg_nmlz/main.py:63 | a parsed path's components are non-empty, never `.` and free of `/` |
| PurePaths.Str | ffmpeg_nmlz/main.py:64 | an absolute path renders with a leading `/` |
| PurePaths.ParseStr | ffmpeg_nmlz/main.py:63-64 | parsing the rendering of a well-formed path gives back that path |
| PurePaths.Child | ffmpeg_nmlz/__main__.py:97 | joining a name onto a directory gives a path with that name whose parent is that directory |
| PurePaths.Stem | ffmpeg_nmlz/main.py:58 | the stem is a prefix of the file name |
| PurePaths.Suffix | ffmpeg_nmlz/main.py:57 | the suffix is empty or starts with a dot, and is no longer than the name |
| PurePaths.StemAndSuffix | ffmpeg_nmlz/main.py:57-58 | stem + suffix rebuild the file name; a non-empty name has a non-empty stem; a non-empty suffix is a dot followed by at least one dot-free character, and the name ends with it |
| PurePaths.SplitExtension | ffmpeg_nmlz/__main__.py:97 | for a non-empty base and a non-empty dot-free extension, `base.ext` has suffix `.ext` and stem `base` |
| PurePaths.Resolve | ffmpeg_nmlz/main.py:68 | the resolved path is absolute, an absolute path is unchanged, and the file name is kept |
| Presets.PresetTable | ffmpeg_nmlz/__main__.py:30-38 | the table holds exactly the seven presets; only `wav` and `flac` have no bitrate; each extension is the preset's name, except that `aac` writes `m4a` |
| Presets.PresetNames | ffmpeg_nmlz/__main__.py:30-38 | `mp3` and `m4a` are the only preset names that are not all letters |
| Presets.LetterRun | ffmpeg_nmlz/__main__.py:28 | the greedy `[a-zA-Z]+` run: its prefix is all letters and the next character, if any, is not a letter |
| Presets.MatchPreset | ffmpeg_nmlz/__main__.py:135-138 | a successful full match splits the item into a non-empty letter group and an optional non-empty digit group that together rebuild it |
| Presets.MatchComplete | ffmpeg_nmlz/__main__.py:28 | every letters-then-optional-digits item fully matches, with exactly those two groups |
| Presets.Selection | ffmpeg_nmlz/__main__.py:135-143 | an item selects a format exactly when it fully matches and its letter group is a table key; the format then has that row's encoder and extension |
| Presets.PresetWithDigits | ffmpeg_nmlz/__main__.py:139-143 | a known preset name followed by digits selects that table row with bitrate `<digits>K` |
| Presets.PresetWithoutDigits | ffmpeg_nmlz/__main__.py:139-141 | a bare known preset name selects exactly its table row |
| Presets.IsPresetIff | ffmpeg_nmlz/__main__.py:134-149 | an item is taken as a preset if and only if it is a known name's letters followed by only digits |
| Presets.Mp3AndM4aUnreachable | ffmpeg_nmlz/__main__.py:28-39 | no item ever selects the `mp3` or `m4a` rows, nor the `libmp3lame` encoder |
| Presets.Mp3IsAPattern | ffmpeg_nmlz/__main__.py:28-39 | `mp3` followed by any digits (such as `mp3320`) matches as `mp` plus digits and is not a preset |
| Presets.M4aIsAPattern | ffmpeg_nmlz/__main__.py:28-39 | the item `m4a` is not a preset |
| Presets.Aac320Example | ffmpeg_nmlz/__main__.py:139-143 | `aac320` selects libfdk_aac, extension m4a, bitrate 320K |
| ArgumentResolver.WithExtension | ffmpeg_nmlz/__main__.py:151-152 | the extension override keeps encoder and bitrate and only replaces the extension |
| ArgumentResolver.ResolvePresets | ffmpeg_nmlz/__main__.py:130-152 | the loop yields the last selected preset (default wav) with the override applied, and exactly the non-preset items in order |
| ArgumentResolver.NoPresetMeansWav | ffmpeg_nmlz/__main__.py:130 | with no preset among the inputs the configuration is the default `DefaultConfig`, the `wav` row: pcm_s16le / wav / no bitrate |
| ArgumentResolver.LastPresetWins | ffmpeg_nmlz/__main__.py:134-143 | the configuration is the selection of the last preset item; items after it do not matter |
| ArgumentResolver.NonPresetsAppend | ffmpeg_nmlz/__main__.py:144-149 | the pattern list of a concatenation is the concatenation of the pattern lists |
| ArgumentResolver.NonPresetsMembers | ffmpeg_nmlz/__main__.py:144-149 | an item is in the pattern list if and only if it is an input that is not a preset |
| ArgumentResolver.NonPresetsCounts | ffmpeg_nmlz/__main__.py:144-149 | presets plus patterns are, as a multiset, exactly the inputs |
| ArgumentResolver.VerifyAndPrepareArgs | ffmpeg_nmlz/__main__.py:118-175 | an unavailable output directory is reported first, then the first expansion error, otherwise the resolved directory, the resolved configuration and the de-duplicated expanded files |
| PathResolver.IsGlob | ffmpeg_nmlz/__main__.py:158 | a pattern is a wildcard exactly when some character of it is `*` or `?` |
| PathResolver.Expand | ffmpeg_nmlz/__main__.py:154-170 | a successful expansion yields at least one file per pattern; the only errors are "no files found" and "failed to open" |
| PathResolver.Dedup | ffmpeg_nmlz/__main__.py:173 | the de-duplicated list is no longer than the input and is empty only when the input is |
| PathResolver.ProbeAll | ffmpeg_nmlz/__main__.py:162-164 | success gives one path per file; failure is an open error |
| PathResolver.ProbeAllContents | ffmpeg_nmlz/__main__.py:106-115 | on success every file was readable and the result is their canonical paths, in order; on failure the error names what the first unreadable file showed, all files before it being readable |
| PathResolver.ExpandOne | ffmpeg_nmlz/__main__.py:158-170 | a pattern that succeeds yields at least one file; "no files found" naming the pattern is raised if and only if it is a glob pattern with no matches |
| PathResolver.ExpandPatterns | ffmpeg_nmlz/__main__.py:154-170 | the nested loop with its `has_file` flag computes exactly the recursive expansion, including which error stops it |
| PathResolver.ExpandOkIff | ffmpeg_nmlz/__main__.py:157-170 | expansion succeeds if and only if every pattern succeeds on its own |
| PathResolver.NoFilesErrorNamesPattern | ffmpeg_nmlz/__main__.py:166-167 | a "no files found" error names one of the given patterns, which is a glob |
| PathResolver.EmptyGlobStopsExpansion | ffmpeg_nmlz/__main__.py:157-167 | the first glob pattern that matches nothing, after the patterns before it expanded, is the error of the whole expansion |
| PathResolver.DedupFiles | ffmpeg_nmlz/__main__.py:173 | the dict-keys loop keeps each file once, in first-occurrence order, and keeps exactly the same set of files |
| PathResolver.DedupSameElements | ffmpeg_nmlz/__main__.py:173 | de-duplication neither loses nor invents a file |
| PathResolver.DedupDistinct | ffmpeg_nmlz/__main__.py:173 | the result holds no file twice |
| PathResolver.DedupKeepsFirstOccurrenceOrder | ffmpeg_nmlz/__main__.py:173 | files come out ordered by their first occurrence in the input |
| PathResolver.DedupOfDistinct | ffmpeg_nmlz/__main__.py:173 | a list without duplicates is unchanged |
| Encoding.TargetGain | ffmpeg_nmlz/__main__.py:214 | the gain is never negative; for a peak at or below 0 dB it lifts the peak to exactly 0 dB; a peak above 0 dB gets a gain equal to the peak, which raises it further |
| Encoding.GetOutPath | ffmpeg_nmlz/__main__.py:96-97 | the output is a direct child of the output directory, its name starts with the input's stem and ends with `-1.<extension>` |
| Encoding.OutPathSplitsBack | ffmpeg_nmlz/__main__.py:96-97 | for an extension without `.` or `/`, the output lies in the output directory, has suffix `.<extension>` and stem `<input stem>-1` |
| Encoding.OutPathNeverInput | ffmpeg_nmlz/__main__.py:96-97 | written next to its input, the output never is the input |
| Encoding.EncodeParams | ffmpeg_nmlz/__main__.py:81-91 | the command has 13 arguments with a bitrate and 11 without; `-y` (overwrite without asking) is its second argument; input, volume filter and encoder sit at fixed positions; the output path is last |
| Encoding.BuildEncodeParams | ffmpeg_nmlz/__main__.py:81-91 | the built argument list is the encode command for the given paths, gain and configuration |
| Encoding.EncodeParamsShape | ffmpeg_nmlz/__main__.py:89-90 | `-b:a` appears if and only if there is a bitrate, and then is followed by the bitrate right after the encoder |
| Encoding.NormalizeFiles | ffmpeg_nmlz/__main__.py:207-220 | the loop yields, in input order, the argument list of each file's encode run: that file, its output path and the gain for its peak |
| Encoding.EncodeRunsAt | ffmpeg_nmlz/__main__.py:207-220 | there is one run per input, and the run at each position belongs to the input at that position |
| Encoding.NormalizeRunsAt | ffmpeg_nmlz/__main__.py:207-220 | run `i` of the loop is the encode command for input `i`, its output path and the gain for its peak |
| Encoding.OutputCanBeLaterInput | ffmpeg_nmlz/__main__.py:96-97 | the output of `<stem>.<ext>` in the output directory is `<stem>-1.<ext>` in that directory |
| Encoding.FirstRunOverwritesSecondInput | ffmpeg_nmlz/__main__.py:81-97 | for inputs `<stem>.<ext>` and `<stem>-1.<ext>` in the output directory, the first file's run writes, with `-y`, the path the second file's run reads |
| LegacyWav.RenamedWav | ffmpeg_nmlz/main.py:58-64 | the renamed output lies in the input's directory, its name starts with the input's stem and ends with `-1.wav` |
| LegacyWav.DefaultOutput | ffmpeg_nmlz/main.py:56-60 | the default output lies in the input's directory, its name starts with the input's stem and ends with `.wav`, and with `-1.wav` when the input has suffix `.wav` |
| LegacyWav.GetPath | ffmpeg_nmlz/main.py:53-70 | `get_path` as written: without an output it always succeeds; its only error is the non-`.wav` output, raised only for an explicit output; on success it returns the input and an absolute output |
| LegacyWav.GetPathChecked | ffmpeg_nmlz/main.py:53-70 | the corrected rule (collision test after resolving): without an output it always succeeds; its only error is a non-`.wav` explicit output; on success it returns the input and an absolute output |
| LegacyWav.WavNames | ffmpeg_nmlz/main.py:58-60 | `<stem>.wav` and `<stem>-1.wav` have suffix `.wav` and stems `<stem>` and `<stem>-1` |
| LegacyWav.RenamedWavIsNotInput | ffmpeg_nmlz/main.py:58 | the renamed `-1.wav` path differs from its input |
| LegacyWav.DefaultOutputIsNotInput | ffmpeg_nmlz/main.py:56-60 | without an explicit output, the output never is the input |
| LegacyWav.DefaultOutputIsWav | ffmpeg_nmlz/main.py:56-60 | without an explicit output, the output has suffix `.wav` |
| LegacyWav.DefaultOutputRule | ffmpeg_nmlz/main.py:56-60 | without an explicit output, a `.wav` input gets `<stem>-1.wav` and any other input `<stem>.wav`, both in the input's directory; the output is never the input |
| LegacyWav.ExplicitCollisionRenamed | ffmpeg_nmlz/main.py:62-64 | an explicit output that prints as the input is replaced by `<stem>-1.wav` next to it |
| LegacyWav.ExplicitNonWavRejected | ffmpeg_nmlz/main.py:65-66 | an explicit output that is not the input and lacks the `.wav` suffix is an error |
| LegacyWav.ExplicitWavKept | ffmpeg_nmlz/main.py:62-68 | an explicit output that is not the input and has suffix `.wav` is returned as that path, resolved |
| LegacyWav.ResultIsWav | ffmpeg_nmlz/main.py:56-66 | every successful output path has suffix `.wav` |
| LegacyWav.RelativeOutputOverwritesInput | ffmpeg_nmlz/main.py:62-68 | as written, a relative output naming the input from its own directory passes the collision check and resolves onto the input |
| LegacyWav.CheckedOutputNeverInput | ffmpeg_nmlz/main.py:62-68 | with the comparison made after resolving, the output never is the input |
| LegacyWav.CheckedAgreesOutsideRelativeOutputs | ffmpeg_nmlz/main.py:53-70 | the corrected rule agrees with the written one when there is no explicit output or it is absolute |
| LegacyWav.ConvertToWav | ffmpeg_nmlz/main.py:32-50 | the command is built if and only if the output path ends with `.wav`, and then has the input, the gain, the PCM encoder, the wav format and the output at fixed positions |
| LegacyWav.Normalize | ffmpeg_nmlz/main.py:73-82 | a `get_path` error stops `normalize`; otherwise the encode run reads the input, applies the gain for the measured peak and writes the path `get_path` chose |
| LegacyWav.ChosenPathEndsWithWav | ffmpeg_nmlz/main.py:53-70 | every output `get_path` returns renders with `.wav` at its end |
| LegacyWav.NormalizeNeverTripsGuard | ffmpeg_nmlz/main.py:73-82 | `normalize` succeeds exactly when `get_path` does: the chosen path always passes the converter's `.wav` guard, and the gain is non-negative and lifts a non-positive peak to 0 dB |
| LegacyWav.NormalizeOverwritesInput | ffmpeg_nmlz/main.py:73-82 | as written, `normalize` with a relative output naming the input from its own directory encodes the input onto itself |

## Left out

- Running FFmpeg is left out: process start, the three failure messages and the exit-code check
  (`call_ffmpeg`, and `Popen(...).wait()` in the legacy file). The model builds the argument lists;
  it does not run them.
- `ffmpeg_get_max_volume` is left out: its command, the `max_volume` regular-expression scrape and the
  float parse. The measured peak is a parameter (`maxVolume`) given as a real number.
- Floating point is left out. Gains are exact reals, so NaN, infinities and `-0.0` are not modelled.
  The `volume={:.1f}dB` text is kept as an argument that holds the real gain, not as formatted text.
- Creating and resolving the output directory is left out. Its outcome is a parameter, `Some(dir)` or `None`.
- Strict resolution and opening of each input is represented by the `probe` parameter. `ROOT.glob` is
  represented by the `glob` parameter. Their own behaviour is not modelled.
- `Resolve` is lexical. Symlinks and `..` components are not followed. pathlib's special leading `//`
  is not modelled.
- The input of `get_path` is taken as an already strictly resolved, absolute path.
- `Presets.LetterRun`, `Presets.MatchComplete` and `Presets.IsPresetIff`: `\d` is modelled as the
  ASCII digits only. Python's pattern also matches other Unicode decimal digits.
- `Encoding.NormalizeFiles`: a failing FFmpeg run, which aborts the loop, is not modelled.
- `Encoding.NormalizeFiles` treats the files as unchanged by the loop: the peak of every input is
  `maxVolume` of its path. One input's output can be a later input, for example `/d/a.wav` and then
  `/d/a-1.wav` with output directory `/d` and the `wav` preset. The first run then overwrites the
  second file (`-y`) before its peak is measured, so the second file is normalised from the first
  file's output. `Encoding.FirstRunOverwritesSecondInput` proves the collision; the model does not
  capture the loss of the second file.
- `Encoding.OutPathNeverInput` is proved only when the output directory is the input's own directory.
  With another directory, an extension that contains `/` could point the output anywhere.
- `Encoding.EncodeParamsShape` assumes that neither path nor the encoder is literally `-b:a`.
- `LegacyWav.DefaultOutputRule`, `LegacyWav.ResultIsWav`, `LegacyWav.ChosenPathEndsWithWav` and `LegacyWav.NormalizeNeverTripsGuard` exclude
  the root directory as input, since it has no file name.
- `Encoding.GetOutPath` keeps the joined name `<stem>-1.<extension>` as one path component. pathlib
  re-parses it, so an extension containing `/` would add further components; the model does not split it.
- The error texts of `FfmpegNmlzError` are not modelled as strings; each error is a constructor of
  `PathResolver.NmlzError` carrying the pattern, path or directory its message names.
- `LegacyWav.ResultIsWav`, `LegacyWav.CheckedOutputNeverInput`, `LegacyWav.ChosenPathEndsWithWav` and
  `LegacyWav.NormalizeNeverTripsGuard` hold for lexical resolution only. `get_path` tests the suffix
  before `resolve(strict=False)`, which follows symbolic links: a `.wav` output that links to a
  non-`.wav` file passes `get_path` and then trips the guard of `ffmpeg_convert_to_wav`. An output
  with `..` parts (such as `/x/../x/song.wav`) also escapes the after-resolve comparison.
- `PathResolver.Expand`: the `glob` parameter cannot fail, so the claim that the only errors are
  "no files found" and "failed to open" holds only for patterns `ROOT.glob` accepts. Two kinds of
  pattern raise instead, and `main` (`__main__.py:226`) catches neither, so the run ends with a
  traceback:
  - an absolute pattern (such as `/music/*.wav`) raises `NotImplementedError`;
  - on Python 3.9 to 3.12, a `**` inside a component (such as `music**.wav`) raises
    `ValueError("Invalid pattern: '**' can only be an entire path component")`.
- `parse_file_input` (`__main__.py:100-103`) is never called and is not modelled.
- Not modelled: argument parsing (`get_parser`), progress printing, the `main` wrappers that turn
  errors into messages, and the legacy `main` loop over the command line.

## Findings

| source | as written | input that shows it | evidently intended | confidence | as-written member | corrected member |
|---|---|---|---|---|---|---|
| ffmpeg_nmlz/main.py:62-68 | the collision check compares the resolved input with the explicit output before that output is resolved; the output is resolved only afterwards | input `/x/song.wav`, output `song.wav`, working directory `/x`: the check compares `/x/song.wav` with `song.wav`, finds no collision, and the output then resolves to `/x/song.wav`, the input itself | compare after resolving the output, so an output that names the input is always renamed to `<stem>-1.wav` | medium; not executed | LegacyWav.RelativeOutputOverwritesInput | LegacyWav.CheckedOutputNeverInput |

=== FILE: argument_resolver.dfy ===
/** Argument resolution (ffmpeg_nmlz/__main__.py:118-175): input tokens are split into
    preset tokens, which choose the output format (the last one wins), and file
    patterns, which are expanded into the deduplicated list of input files. */
module ArgumentResolver {
  import opened Wrappers
  import opened PurePaths
  import opened Presets
  import opened PathResolver

  /** The format before any preset token: the `wav` entry of the table. */
  const DefaultConfig: FormatConfig := PresetInfo["wav"]

  /** The format chosen by the last preset token of `inputs`, the default when none is. */
  function LastSelected(inputs: seq<string>): FormatConfig
  {
    if inputs == [] then DefaultConfig
    else match Selection(inputs[|inputs| - 1])
      case Some(c) => c
      case None => LastSelected(inputs[..|inputs| - 1])
  }

  /** The tokens that are not preset tokens, in order. */
  function NonPresets(inputs: seq<string>): seq<string>
  {
    if inputs == [] then []
    else NonPresets(inputs[..|inputs| - 1]) + (if IsPreset(inputs[|inputs| - 1]) then [] else [inputs[|inputs| - 1]])
  }

  /** `-e`: an explicit extension replaces the extension and nothing else. */
  function WithExtension(c: FormatConfig, extension: Option<string>): (r: FormatConfig)
    ensures r.encoder == c.encoder && r.bitrate == c.bitrate
    ensures extension.Some? ==> r.extension == extension.value
    ensures extension.None? ==> r == c
  {
    if extension.Some? then c.(extension := extension.value) else c
  }

  /** The first loop of `verify_and_prepare_args` and the extension override. */
  method ResolvePresets(inputs: seq<string>, extension: Option<string>)
    returns (config: FormatConfig, inputPatterns: seq<string>)
    ensures config == WithExtension(LastSelected(inputs), extension)
    ensures inputPatterns == NonPresets(inputs)
  {
    var encoder, ext, bitrate := DefaultConfig.encoder, DefaultConfig.extension, DefaultConfig.bitrate;
    inputPatterns := [];
    var i := 0;
    while i < |inputs|
      invariant 0 <= i <= |inputs|
      invariant FormatConfig(encoder, ext, bitrate) == LastSelected(inputs[..i])
      invariant inputPatterns == NonPresets(inputs[..i])
    {
      var inputItem := inputs[i];
      assert inputs[..i + 1][..i] == inputs[..i] && inputs[..i + 1][i] == inputItem;
      var matchRes := MatchPreset(inputItem);
      if matchRes.Some? {
        var presetName, parsedBitrate := matchRes.value.name, matchRes.value.digits;
        if presetName in PresetInfo {
          var preset := PresetInfo[presetName];
          encoder, ext, bitrate := preset.encoder, preset.extension, preset.bitrate;
          if parsedBitrate.Some? {
            bitrate := Some(parsedBitrate.value + "K");
          }
        } else {
          inputPatterns := inputPatterns + [inputItem];
        }
      } else {
        inputPatterns := inputPatterns + [inputItem];
      }
      i := i + 1;
    }
    assert inputs[..i] == inputs;
    if extension.Some? {
      ext := extension.value;
    }
    config := FormatConfig(encoder, ext, bitrate);
  }

  /** Without any preset token the format is the `wav` preset: PCM, no bitrate. */
  lemma {:induction false} NoPresetMeansWav(inputs: seq<string>)
    requires forall i :: 0 <= i < |inputs| ==> !IsPreset(inputs[i])
    ensures LastSelected(inputs) == FormatConfig("pcm_s16le", "wav", None)
  {
    if inputs != [] {
      var front := inputs[..|inputs| - 1];
      assert forall i :: 0 <= i < |front| ==> front[i] == inputs[i];
      NoPresetMeansWav(front);
    }
  }

  /** The last preset token decides encoder, extension and bitrate. */
  lemma {:induction false} LastPresetWins(inputs: seq<string>, k: nat)
    requires k < |inputs| && IsPreset(inputs[k])
    requires forall j :: k < j < |inputs| ==> !IsPreset(inputs[j])
    ensures LastSelected(inputs) == Selection(inputs[k]).value
  {
    if k < |inputs| - 1 {
      var front := inputs[..|inputs| - 1];
      assert forall j :: 0 <= j < |front| ==> front[j] == inputs[j];
      LastPresetWins(front, k);
    }
  }

  /** Filtering out preset tokens distributes over concatenation, so the patterns keep
      their relative order. */
  lemma {:induction false} NonPresetsAppend(a: seq<string>, b: seq<string>)
    ensures NonPresets(a + b) == NonPresets(a) + NonPresets(b)
  {
    if b != [] {
      var b' := b[..|b| - 1];
      assert (a + b)[..|a + b| - 1] == a + b';
      NonPresetsAppend(a, b');
    } else {
      assert a + b == a;
    }
  }

  /** A token is a pattern exactly when it occurs in the input and is no preset token. */
  lemma {:induction false} NonPresetsMembers(inputs: seq<string>, t: string)
    ensures t in NonPresets(inputs) <==> t in inputs && !IsPreset(t)
  {
    if inputs != [] {
      var front := inputs[..|inputs| - 1];
      NonPresetsMembers(front, t);
      assert inputs == front + [inputs[|inputs| - 1]];
    }
  }

  /** Every occurrence of a non-preset token is kept, and nothing else: each pattern
      appears as often as in the input, each preset token not at all. */
  lemma {:induction false} NonPresetsCounts(inputs: seq<string>, t: string)
    ensures multiset(NonPresets(inputs))[t] == if IsPreset(t) then 0 else multiset(inputs)[t]
  {
    if inputs != [] {
      var front := inputs[..|inputs| - 1];
      NonPresetsCounts(front, t);
      assert inputs == front + [inputs[|inputs| - 1]];
    }
  }

  /** What `verify_and_prepare_args` returns. */
  datatype PreparedArgs = PreparedArgs(outputDir: PurePath, config: FormatConfig, inputFiles: seq<PurePath>)

  /** `verify_and_prepare_args`. `outputDir` is what creating and resolving the
      `-d` directory `outputDirArg` gave, `None` when that failed. */
  method VerifyAndPrepareArgs(outputDirArg: string, outputDir: Option<PurePath>,
                              inputs: seq<string>, extension: Option<string>,
                              glob: string -> seq<string>, probe: string -> Probe)
    returns (r: Result<PreparedArgs, NmlzError>)
    ensures outputDir.None? ==> r == Err(OutputDirUnavailable(outputDirArg))
    ensures outputDir.Some? && Expand(NonPresets(inputs), glob, probe).Err? ==>
              r == Err(Expand(NonPresets(inputs), glob, probe).error)
    ensures outputDir.Some? && Expand(NonPresets(inputs), glob, probe).Ok? ==>
              r == Ok(PreparedArgs(outputDir.value, WithExtension(LastSelected(inputs), extension),
                                   Dedup(Expand(NonPresets(inputs), glob, probe).value)))
  {
    if outputDir.None? {
      return Err(OutputDirUnavailable(outputDirArg));
    }
    var config, inputPatterns := ResolvePresets(inputs, extension);
    var expanded := ExpandPatterns(inputPatterns, glob, probe);
    if expanded.Err? {
      return Err(expanded.error);
    }
    var inputFiles := DedupFiles(expanded.value);
    r := Ok(PreparedArgs(outputDir.value, config, inputFiles));
  }
}

=== FILE: encoding.dfy ===
/** Per-file work of the normaliser (ffmpeg_nmlz/__main__.py:77-97, 203-220): the output
    path, the gain computed from the measured peak, and the argument list of the encode
    run. Running the external tool is not modelled; the measured peak is an oracle. */
module Encoding {
  import opened PurePaths
  import opened Presets

  /** One argument of the external tool. The volume filter is kept as its gain in
      decibels; it is rendered as `volume=<gain with one decimal>dB`. */
  datatype Arg = Text(text: string) | VolumeFilter(gain: real)

  /** `max(abs(max_volume), 0)`: the boost applied in the encode run. */
  function TargetGain(maxVolume: real): (gain: real)
    ensures gain >= 0.0
    ensures maxVolume <= 0.0 ==> maxVolume + gain == 0.0
    ensures maxVolume > 0.0 ==> gain == maxVolume  // a peak above 0 dB is boosted further
  {
    var a := if maxVolume < 0.0 then -maxVolume else maxVolume;
    if 0.0 > a then 0.0 else a
  }

  /** `get_out_path`: `<output_dir>/<stem>-1.<extension>`, a file directly inside the
      output directory whose name keeps the input's stem and ends with the extension. */
  function GetOutPath(outputDir: PurePath, config: FormatConfig, inPath: PurePath): (r: PurePath)
    ensures Parent(r) == outputDir && r.absolute == outputDir.absolute
    ensures |r.parts| == |outputDir.parts| + 1
    ensures EndsWith(Name(r), "-1." + config.extension)
    ensures |Stem(Name(inPath))| < |Name(r)| && Name(r)[..|Stem(Name(inPath))|] == Stem(Name(inPath))
  {
    Child(outputDir, Stem(Name(inPath)) + "-1." + config.extension)
  }

  /** The output file sits in the output directory, and for a plain extension its name
      splits back into the input's stem with `-1` and that extension. */
  lemma OutPathSplitsBack(outputDir: PurePath, config: FormatConfig, inPath: PurePath)
    requires config.extension != "" && '.' !in config.extension && '/' !in config.extension
    ensures Parent(GetOutPath(outputDir, config, inPath)) == outputDir
    ensures Suffix(Name(GetOutPath(outputDir, config, inPath))) == "." + config.extension
    ensures Stem(Name(GetOutPath(outputDir, config, inPath))) == Stem(Name(inPath)) + "-1"
  {
    var stem, ext := Stem(Name(inPath)), config.extension;
    var name := Name(GetOutPath(outputDir, config, inPath));
    assert name == stem + "-1." + ext;
    assert name == (stem + "-1") + "." + ext;
    SplitExtension(stem + "-1", ext);
  }

  /** A stem followed by `-1.` and an extension differs from the same stem followed by
      a suffix, since a suffix is empty or starts with a dot. */
  lemma RenamedDiffers(stem: string, suffix: string, ext: string)
    requires suffix == "" || suffix[0] == '.'
    ensures stem + "-1." + ext != stem + suffix
  {
    var renamed := stem + "-1." + ext;
    assert renamed[|stem|] == '-';
    assert |renamed| > |stem|;
    assert suffix != "" ==> (stem + suffix)[|stem|] == '.';
  }

  /** When the output directory is the input's own directory the output never
      overwrites the input, whatever the extension. */
  lemma OutPathNeverInput(config: FormatConfig, inPath: PurePath)
    requires inPath.absolute
    ensures Str(GetOutPath(Parent(inPath), config, inPath)) != Str(inPath)
  {
    var name := Name(inPath);
    var outName := Stem(name) + "-1." + config.extension;
    if inPath.parts == [] {
      StrChild(inPath, outName);
    } else {
      ChildOfParent(inPath);
      StemAndSuffix(name);
      RenamedDiffers(Stem(name), Suffix(name), config.extension);
      StrChildDistinct(Parent(inPath), outName, name);
    }
  }

  /** The argument list of the encode run. */
  function EncodeParams(inPath: string, outPath: string, volume: real, config: FormatConfig): (p: seq<Arg>)
    ensures |p| == (if config.bitrate.Some? then 13 else 11)
    ensures p[1] == Text("-y")
    ensures p[3] == Text(inPath) && p[7] == VolumeFilter(volume) && p[9] == Text(config.encoder)
    ensures p[|p| - 1] == Text(outPath)
  {
    [Text("ffmpeg"), Text("-y"), Text("-i"), Text(inPath), Text("-map"), Text("0:a:0"),
     Text("-af"), VolumeFilter(volume), Text("-c:a"), Text(config.encoder)]
    + (if config.bitrate.Some? then [Text("-b:a"), Text(config.bitrate.value)] else [])
    + [Text(outPath)]
  }

  /** The list is built as in `ffmpeg_convert_with_volume_filter`: the fixed part, then
      the bitrate pair when there is a bitrate, then the output path. */
  method BuildEncodeParams(inPath: string, outPath: string, volume: real, config: FormatConfig)
    returns (params: seq<Arg>)
    ensures params == EncodeParams(inPath, outPath, volume, config)
  {
    params := [Text("ffmpeg"), Text("-y"), Text("-i"), Text(inPath), Text("-map"), Text("0:a:0"),
               Text("-af"), VolumeFilter(volume), Text("-c:a"), Text(config.encoder)];
    if config.bitrate.Some? {
      params := params + [Text("-b:a"), Text(config.bitrate.value)];
    }
    params := params + [Text(outPath)];
  }

  /** The encode run carries `-b:a <bitrate>` exactly when the format has a bitrate
      (given that neither path nor the encoder is itself the text `-b:a`). */
  lemma EncodeParamsShape(inPath: string, outPath: string, volume: real, config: FormatConfig)
    requires inPath != "-b:a" && outPath != "-b:a" && config.encoder != "-b:a"
    ensures var p := EncodeParams(inPath, outPath, volume, config);
      && (Text("-b:a") in p <==> config.bitrate.Some?)
      && (config.bitrate.Some? ==> p[10] == Text("-b:a") && p[11] == Text(config.bitrate.value))
  {
    var p := EncodeParams(inPath, outPath, volume, config);
    if config.bitrate.None? {
      assert forall i :: 0 <= i < |p| ==> p[i] != Text("-b:a");
    } else {
      assert p[10] == Text("-b:a");
    }
  }

  /** The encode run `do_normalizing` makes for one input file. */
  function EncodeRun(outputDir: PurePath, config: FormatConfig, maxVolume: PurePath -> real,
                     inPath: PurePath): seq<Arg>
  {
    EncodeParams(Str(inPath), Str(GetOutPath(outputDir, config, inPath)), TargetGain(maxVolume(inPath)), config)
  }

  /** The encode runs for `inputPaths`, in order, given the run each one makes. */
  function EncodeRuns(run: PurePath -> seq<Arg>, inputPaths: seq<PurePath>): seq<seq<Arg>>
  {
    if inputPaths == [] then []
    else EncodeRuns(run, inputPaths[..|inputPaths| - 1]) + [run(inputPaths[|inputPaths| - 1])]
  }

  /** There is one run per input, and the run at each position is that input's. */
  lemma {:induction false} EncodeRunsAt(run: PurePath -> seq<Arg>, inputPaths: seq<PurePath>)
    ensures |EncodeRuns(run, inputPaths)| == |inputPaths|
    ensures forall i :: 0 <= i < |inputPaths| ==> EncodeRuns(run, inputPaths)[i] == run(inputPaths[i])
  {
    if inputPaths != [] {
      EncodeRunsAt(run, inputPaths[..|inputPaths| - 1]);
    }
  }

  /** The loop of `do_normalizing`: for every input file, in order, the argument list of
      the encode run it makes (`EncodeRun`), with the output path of that file and the gain
      derived from the peak that its detection run reports (the oracle `maxVolume`). */
  method NormalizeFiles(outputDir: PurePath, config: FormatConfig, inputPaths: seq<PurePath>,
                        maxVolume: PurePath -> real)
    returns (runs: seq<seq<Arg>>)
    ensures runs == EncodeRuns(p => EncodeRun(outputDir, config, maxVolume, p), inputPaths)
  {
    ghost var run := p => EncodeRun(outputDir, config, maxVolume, p);
    runs := [];
    var i := 0;
    while i < |inputPaths|
      invariant 0 <= i <= |inputPaths|
      invariant runs == EncodeRuns(run, inputPaths[..i])
    {
      var inPath := inputPaths[i];
      var outPath := GetOutPath(outputDir, config, inPath);
      var targetVolume := TargetGain(maxVolume(inPath));
      var params := BuildEncodeParams(Str(inPath), Str(outPath), targetVolume, config);
      assert inputPaths[..i + 1][..i] == inputPaths[..i];
      runs := runs + [params];
      i := i + 1;
    }
    assert inputPaths[..i] == inputPaths;
  }

  /** `NormalizeFiles` makes one run per input, the run at each position being that input's. */
  lemma NormalizeRunsAt(outputDir: PurePath, config: FormatConfig, inputPaths: seq<PurePath>,
                        maxVolume: PurePath -> real)
    ensures |EncodeRuns(p => EncodeRun(outputDir, config, maxVolume, p), inputPaths)| == |inputPaths|
    ensures forall i :: 0 <= i < |inputPaths| ==>
      EncodeRuns(p => EncodeRun(outputDir, config, maxVolume, p), inputPaths)[i]
        == EncodeParams(Str(inputPaths[i]), Str(GetOutPath(outputDir, config, inputPaths[i])),
                        TargetGain(maxVolume(inputPaths[i])), config)
  {
    EncodeRunsAt(p => EncodeRun(outputDir, config, maxVolume, p), inputPaths);
  }

  /** The output of `<stem>.<ext>` is `<stem>-1.<ext>` in the same output directory, so a
      second input of that name is a path `get_out_path` writes to. */
  lemma OutputCanBeLaterInput(outputDir: PurePath, config: FormatConfig, stem: string)
    requires stem != "" && config.extension != "" && '.' !in config.extension
    ensures GetOutPath(outputDir, config, Child(outputDir, stem + "." + config.extension))
            == Child(outputDir, stem + "-1." + config.extension)
  {
    SplitExtension(stem, config.extension);
  }

  /** Given `<stem>.<ext>` and `<stem>-1.<ext>` in the output directory, the encode run of
      the first writes, with `-y`, the very file the encode run of the second reads; when
      the first comes earlier in the input list, the second file is overwritten before
      its peak is measured. */
  lemma FirstRunOverwritesSecondInput(outputDir: PurePath, config: FormatConfig, stem: string,
                                      maxVolume: PurePath -> real)
    requires stem != "" && config.extension != "" && '.' !in config.extension
    ensures var first := Child(outputDir, stem + "." + config.extension);
            var second := Child(outputDir, stem + "-1." + config.extension);
            var run1 := EncodeRun(outputDir, config, maxVolume, first);
            var run2 := EncodeRun(outputDir, config, maxVolume, second);
            run1[1] == Text("-y") && run1[|run1| - 1] == run2[3] == Text(Str(second))
  {
    OutputCanBeLaterInput(outputDir, config, stem);
  }
}

=== FILE: legacy_wav.dfy ===
/** The older, WAV-only entry point (ffmpeg_nmlz/main.py): choosing an output path that
    does not collide with the input and always has suffix `.wav`, the `.wav` guard of the
    encode run, and the gain. Strict resolution of the input is taken as done: the input
    is given as the absolute path it resolved to. */
module LegacyWav {
  import opened Wrappers
  import opened PurePaths
  import opened Encoding

  /** The `ValueError`s of main.py. */
  datatype LegacyError =
    | OutputNotWav   // get_path: 'Output path must end with .wav'
    | OutPathNotWav  // ffmpeg_convert_to_wav: 'out_path must end with ".wav".'

  /** `<parent>/<stem>-1.wav`, the renamed output next to the input: a file in the input's
      directory whose name starts with the input's stem and ends with `-1.wav`. */
  function RenamedWav(inPath: PurePath): (r: PurePath)
    ensures Parent(r) == Parent(inPath) && r.absolute == inPath.absolute
    ensures EndsWith(Name(r), "-1.wav")
    ensures |Stem(Name(inPath))| < |Name(r)| && Name(r)[..|Stem(Name(inPath))|] == Stem(Name(inPath))
  {
    Child(Parent(inPath), Stem(Name(inPath)) + "-1.wav")
  }

  /** The output chosen when none is given: a file in the input's directory whose name
      starts with the input's stem and ends with `.wav`, with `-1` before it when the
      input itself has suffix `.wav`. */
  function DefaultOutput(inPath: PurePath): (r: PurePath)
    ensures Parent(r) == Parent(inPath) && r.absolute == inPath.absolute
    ensures EndsWith(Name(r), ".wav")
    ensures Suffix(Name(inPath)) == ".wav" ==> EndsWith(Name(r), "-1.wav")
    ensures |Stem(Name(inPath))| < |Name(r)| && Name(r)[..|Stem(Name(inPath))|] == Stem(Name(inPath))
  {
    if Suffix(Name(inPath)) == ".wav" then RenamedWav(inPath)
    else Child(Parent(inPath), Stem(Name(inPath)) + ".wav")
  }

  /** `get_path` as written: an explicit output is compared, as a string, with the
      resolved input before it is itself resolved. `cwd` holds the parts of the
      working directory that the final `resolve(strict=False)` puts relative paths under. */
  function GetPath(inPath: PurePath, outPathStr: Option<string>, cwd: seq<string>)
    : (r: Result<(PurePath, PurePath), LegacyError>)
    ensures outPathStr.None? ==> r.Ok?
    ensures r.Err? ==> outPathStr.Some? && r.error == OutputNotWav
    ensures r.Ok? ==> r.value.0 == inPath && r.value.1.absolute
  {
    if outPathStr.None? then Ok((inPath, Resolve(cwd, DefaultOutput(inPath))))
    else
      var given := Parse(outPathStr.value);
      var outPath := if Str(inPath) == Str(given) then RenamedWav(inPath) else given;
      if Suffix(Name(outPath)) != ".wav" then Err(OutputNotWav)
      else Ok((inPath, Resolve(cwd, outPath)))
  }

  /** `get_path` with the collision test made after resolving the explicit output. */
  function GetPathChecked(inPath: PurePath, outPathStr: Option<string>, cwd: seq<string>)
    : (r: Result<(PurePath, PurePath), LegacyError>)
    ensures outPathStr.None? ==> r.Ok?
    ensures r.Err? ==> outPathStr.Some? && r.error == OutputNotWav
    ensures r.Ok? ==> r.value.0 == inPath && r.value.1.absolute
  {
    if outPathStr.None? then Ok((inPath, Resolve(cwd, DefaultOutput(inPath))))
    else
      var given := Resolve(cwd, Parse(outPathStr.value));
      var outPath := if Str(inPath) == Str(given) then RenamedWav(inPath) else given;
      if Suffix(Name(outPath)) != ".wav" then Err(OutputNotWav)
      else Ok((inPath, Resolve(cwd, outPath)))
  }

  /** `<stem>-1.wav` and `<stem>.wav` (for a non-empty stem) have suffix `.wav`. */
  lemma WavNames(stem: string)
    ensures Suffix(stem + "-1.wav") == ".wav"
    ensures stem != "" ==> Suffix(stem + ".wav") == ".wav"
  {
    assert stem + "-1.wav" == (stem + "-1") + "." + "wav";
    SplitExtension(stem + "-1", "wav");
    if stem != "" {
      assert stem + ".wav" == stem + "." + "wav";
      SplitExtension(stem, "wav");
    }
  }

  /** The renamed output never renders like the input. */
  lemma RenamedWavIsNotInput(inPath: PurePath)
    requires inPath.absolute
    ensures Str(RenamedWav(inPath)) != Str(inPath)
  {
    var name := Name(inPath);
    if inPath.parts == [] {
      StrChild(inPath, Stem(name) + "-1.wav");
    } else {
      ChildOfParent(inPath);
      assert Stem(name) + "-1.wav" == Stem(name) + "-1." + "wav";
      StemAndSuffix(name);
      RenamedDiffers(Stem(name), Suffix(name), "wav");
      StrChildDistinct(Parent(inPath), Stem(name) + "-1.wav", name);
    }
  }

  /** The default output never renders like the input. */
  lemma DefaultOutputIsNotInput(inPath: PurePath)
    requires inPath.absolute
    ensures Str(DefaultOutput(inPath)) != Str(inPath)
  {
    var name := Name(inPath);
    if Suffix(name) == ".wav" {
      RenamedWavIsNotInput(inPath);
    } else if inPath.parts == [] {
      StrChild(inPath, Stem(name) + ".wav");
    } else {
      ChildOfParent(inPath);
      StemAndSuffix(name);
      assert Stem(name) + ".wav" != name;
      StrChildDistinct(Parent(inPath), Stem(name) + ".wav", name);
    }
  }

  /** The default output of an input with a name has suffix `.wav`. */
  lemma DefaultOutputIsWav(inPath: PurePath)
    requires Name(inPath) != ""
    ensures Suffix(Name(DefaultOutput(inPath))) == ".wav"
  {
    StemAndSuffix(Name(inPath));
    WavNames(Stem(Name(inPath)));
  }

  /** Without an explicit output: `<parent>/<stem>-1.wav` for a `.wav` input,
      `<parent>/<stem>.wav` otherwise; it is never the input and (for an input with a
      name) always has suffix `.wav`. */
  lemma DefaultOutputRule(inPath: PurePath, cwd: seq<string>)
    requires inPath.absolute
    ensures GetPath(inPath, None, cwd) == Ok((inPath, DefaultOutput(inPath)))
    ensures Suffix(Name(inPath)) == ".wav" ==>
              DefaultOutput(inPath) == Child(Parent(inPath), Stem(Name(inPath)) + "-1.wav")
    ensures Suffix(Name(inPath)) != ".wav" ==>
              DefaultOutput(inPath) == Child(Parent(inPath), Stem(Name(inPath)) + ".wav")
    ensures Str(DefaultOutput(inPath)) != Str(inPath)
    ensures Name(inPath) != "" ==> Suffix(Name(DefaultOutput(inPath))) == ".wav"
  {
    DefaultOutputIsNotInput(inPath);
    if Name(inPath) != "" {
      DefaultOutputIsWav(inPath);
    }
  }

  /** An explicit output that renders like the input is replaced by
      `<parent>/<stem>-1.wav`. */
  lemma ExplicitCollisionRenamed(inPath: PurePath, outPathStr: string, cwd: seq<string>)
    requires inPath.absolute && Str(Parse(outPathStr)) == Str(inPath)
    ensures GetPath(inPath, Some(outPathStr), cwd) == Ok((inPath, RenamedWav(inPath)))
    ensures Str(RenamedWav(inPath)) != Str(inPath)
  {
    WavNames(Stem(Name(inPath)));
    RenamedWavIsNotInput(inPath);
  }

  /** An explicit output that is not the input and whose suffix is not `.wav` is an
      error. */
  lemma ExplicitNonWavRejected(inPath: PurePath, outPathStr: string, cwd: seq<string>)
    requires Str(Parse(outPathStr)) != Str(inPath) && Suffix(Name(Parse(outPathStr))) != ".wav"
    ensures GetPath(inPath, Some(outPathStr), cwd) == Err(OutputNotWav)
  {
  }

  /** An explicit output that is not the input and has suffix `.wav` is kept, and only
      resolved. */
  lemma ExplicitWavKept(inPath: PurePath, outPathStr: string, cwd: seq<string>)
    requires Str(Parse(outPathStr)) != Str(inPath) && Suffix(Name(Parse(outPathStr))) == ".wav"
    ensures GetPath(inPath, Some(outPathStr), cwd) == Ok((inPath, Resolve(cwd, Parse(outPathStr))))
  {
  }

  /** Every successful result has suffix `.wav`; the only exception is the root
      directory as input, whose name is empty. */
  lemma ResultIsWav(inPath: PurePath, outPathStr: Option<string>, cwd: seq<string>)
    requires inPath.absolute && Name(inPath) != ""
    requires GetPath(inPath, outPathStr, cwd).Ok?
    ensures Suffix(Name(GetPath(inPath, outPathStr, cwd).value.1)) == ".wav"
  {
    if outPathStr.None? {
      DefaultOutputIsWav(inPath);
    } else {
      var given := Parse(outPathStr.value);
      var outPath := if Str(inPath) == Str(given) then RenamedWav(inPath) else given;
      assert outPath.parts != [];
    }
  }

  /** A relative output naming the input file inside the working directory passes the
      string comparison and then resolves onto the input itself. */
  lemma RelativeOutputOverwritesInput(cwd: seq<string>, name: string)
    requires '/' !in name && name != "" && name != "." && Suffix(name) == ".wav"
    ensures var inPath := PurePath(true, cwd + [name]);
      GetPath(inPath, Some(name), cwd) == Ok((inPath, inPath))
  {
    var inPath := PurePath(true, cwd + [name]);
    SplitNoSlash(name);
    assert [name][1..] == [];
    assert KeptParts([name]) == [name];
    assert name[0] != '/';
    assert Parse(name) == PurePath(false, [name]);
    assert Str(Parse(name)) == name;
    assert Str(inPath)[0] == '/';
  }

  /** With the collision test after resolution, no successful result is the input. */
  lemma CheckedOutputNeverInput(inPath: PurePath, outPathStr: Option<string>, cwd: seq<string>)
    requires inPath.absolute
    requires GetPathChecked(inPath, outPathStr, cwd).Ok?
    ensures Str(GetPathChecked(inPath, outPathStr, cwd).value.1) != Str(inPath)
  {
    if outPathStr.None? {
      DefaultOutputIsNotInput(inPath);
    } else {
      RenamedWavIsNotInput(inPath);
    }
  }

  /** The correction changes nothing when no output is given (the only way the legacy
      command line calls it) or when the given output is absolute. */
  lemma CheckedAgreesOutsideRelativeOutputs(inPath: PurePath, outPathStr: Option<string>, cwd: seq<string>)
    requires outPathStr.None? || Parse(outPathStr.value).absolute
    ensures GetPathChecked(inPath, outPathStr, cwd) == GetPath(inPath, outPathStr, cwd)
  {
  }

  /** `ffmpeg_convert_to_wav`: an output path not ending in `.wav` is refused before
      anything is run; otherwise the argument list of the encode run. */
  function ConvertToWav(inPath: string, outPath: string, volume: real): (r: Result<seq<Arg>, LegacyError>)
    ensures r.Ok? <==> EndsWith(outPath, ".wav")
    ensures r.Err? ==> r.error == OutPathNotWav
    ensures r.Ok? ==> |r.value| == 13 && r.value[3] == Text(inPath) && r.value[7] == VolumeFilter(volume)
                      && r.value[9] == Text("pcm_s16le") && r.value[11] == Text("wav")
                      && r.value[12] == Text(outPath)
  {
    if !EndsWith(outPath, ".wav") then Err(OutPathNotWav)
    else Ok([Text("ffmpeg"), Text("-y"), Text("-i"), Text(inPath), Text("-map"), Text("0:a:0"),
             Text("-af"), VolumeFilter(volume), Text("-c:a"), Text("pcm_s16le"), Text("-f"), Text("wav"),
             Text(outPath)])
  }

  /** `normalize`: choose the paths with `get_path`, derive the gain from the measured
      peak, and build the encode run of the input into the chosen output; a path error
      stops it before anything is run. */
  function Normalize(inPath: PurePath, outPathStr: Option<string>, cwd: seq<string>, maxVolume: real)
    : (r: Result<seq<Arg>, LegacyError>)
    ensures GetPath(inPath, outPathStr, cwd).Err? ==> r == Err(GetPath(inPath, outPathStr, cwd).error)
    ensures r.Ok? ==>
      && GetPath(inPath, outPathStr, cwd).Ok? && |r.value| == 13
      && r.value[3] == Text(Str(inPath))
      && r.value[7] == VolumeFilter(TargetGain(maxVolume))
      && r.value[12] == Text(Str(GetPath(inPath, outPathStr, cwd).value.1))
  {
    match GetPath(inPath, outPathStr, cwd)
    case Err(e) => Err(e)
    case Ok((i, o)) => ConvertToWav(Str(i), Str(o), TargetGain(maxVolume))
  }

  /** The path `get_path` chooses always renders with `.wav` at its end. */
  lemma ChosenPathEndsWithWav(inPath: PurePath, outPathStr: Option<string>, cwd: seq<string>)
    requires inPath.absolute && Name(inPath) != ""
    requires GetPath(inPath, outPathStr, cwd).Ok?
    ensures EndsWith(Str(GetPath(inPath, outPathStr, cwd).value.1), ".wav")
  {
    var o := GetPath(inPath, outPathStr, cwd).value.1;
    ResultIsWav(inPath, outPathStr, cwd);
    StemAndSuffix(Name(o));
    assert o.parts != [];
    StrEndsWithName(o);
    EndsWithTrans(Str(o), Name(o), ".wav");
  }

  /** The path choice always yields a `.wav` path, so the guard of the encode run never
      fires: `normalize` fails only where `get_path` does, and then encodes the chosen
      output with a non-negative gain that brings a non-positive peak to 0 dB. */
  lemma NormalizeNeverTripsGuard(inPath: PurePath, outPathStr: Option<string>, cwd: seq<string>, maxVolume: real)
    requires inPath.absolute && Name(inPath) != ""
    ensures Normalize(inPath, outPathStr, cwd, maxVolume).Ok? <==> GetPath(inPath, outPathStr, cwd).Ok?
    ensures Normalize(inPath, outPathStr, cwd, maxVolume).Ok? ==>
      var run := Normalize(inPath, outPathStr, cwd, maxVolume).value;
      && run[12] == Text(Str(GetPath(inPath, outPathStr, cwd).value.1))
      && run[7].gain >= 0.0
      && (maxVolume <= 0.0 ==> maxVolume + run[7].gain == 0.0)
  {
    if GetPath(inPath, outPathStr, cwd).Ok? {
      ChosenPathEndsWithWav(inPath, outPathStr, cwd);
    }
  }

  /** As written, `normalize` given a relative output that names the input file from
      its own directory encodes the input onto itself. */
  lemma NormalizeOverwritesInput(cwd: seq<string>, name: string, maxVolume: real)
    requires '/' !in name && name != "" && name != "." && Suffix(name) == ".wav"
    ensures var inPath := PurePath(true, cwd + [name]);
      && Normalize(inPath, Some(name), cwd, maxVolume).Ok?
      && Normalize(inPath, Some(name), cwd, maxVolume).value[12]
         == Normalize(inPath, Some(name), cwd, maxVolume).value[3]
  {
    var inPath := PurePath(true, cwd + [name]);
    RelativeOutputOverwritesInput(cwd, name);
    ChosenPathEndsWithWav(inPath, Some(name), cwd);
  }
}

=== FILE: path_resolver.dfy ===
/** Turning file patterns into canonical input files (ffmpeg_nmlz/__main__.py:106-115,
    154-173): wildcard patterns are expanded, every file is canonicalised and checked
    to be readable, and the list is deduplicated keeping first occurrences.
    The filesystem is given as two oracles: `glob` lists what `ROOT.glob(pattern)` yields,
    `probe` says what `verify_and_canonicanize_path` makes of a path. */
module PathResolver {
  import opened Wrappers
  import opened PurePaths

  /** The program's own errors (`FfmpegNmlzError`) raised while preparing arguments. */
  datatype NmlzError =
    | OutputDirUnavailable(dir: string)
    | NoFilesForPattern(pattern: string)
    | OpenFailed(path: string)

  /** Outcome of resolving a path strictly and reading one byte from it: the canonical
      path, or the path the error message names. */
  datatype Probe = Readable(canonical: PurePath) | Unreadable(shown: string)

  /** A pattern is expanded as a wildcard exactly when it contains `*` or `?`. */
  function IsGlob(pattern: string): (b: bool)
    ensures b <==> exists i :: 0 <= i < |pattern| && (pattern[i] == '*' || pattern[i] == '?')
  {
    '*' in pattern || '?' in pattern
  }

  /** Probing `paths` in order; the first unreadable one is the error. */
  function ProbeAll(paths: seq<string>, probe: string -> Probe): (r: Result<seq<PurePath>, NmlzError>)
    ensures r.Ok? ==> |r.value| == |paths|
    ensures r.Err? ==> r.error.OpenFailed?
  {
    if paths == [] then Ok([])
    else
      var front := paths[..|paths| - 1];
      match ProbeAll(front, probe)
      case Err(e) => Err(e)
      case Ok(found) =>
        match probe(paths[|paths| - 1])
        case Unreadable(shown) => Err(OpenFailed(shown))
        case Readable(p) => Ok(found + [p])
  }

  /** On success every path was readable and the result holds their canonical paths in
      order; otherwise the error names what the first unreadable path showed. */
  lemma {:induction false} ProbeAllContents(paths: seq<string>, probe: string -> Probe)
    ensures var r := ProbeAll(paths, probe);
      r.Ok? ==> forall i :: 0 <= i < |paths| ==>
                  probe(paths[i]).Readable? && r.value[i] == probe(paths[i]).canonical
    ensures var r := ProbeAll(paths, probe);
      r.Err? ==> exists i :: 0 <= i < |paths| && probe(paths[i]) == Unreadable(r.error.path)
                             && forall j :: 0 <= j < i ==> probe(paths[j]).Readable?
  {
    if paths != [] {
      var front := paths[..|paths| - 1];
      ProbeAllContents(front, probe);
      assert forall i :: 0 <= i < |front| ==> front[i] == paths[i];
    }
  }

  /** The files one pattern stands for. */
  function ExpandOne(pattern: string, glob: string -> seq<string>, probe: string -> Probe)
    : (r: Result<seq<PurePath>, NmlzError>)
    ensures r.Ok? ==> |r.value| >= 1
    ensures r.Err? && r.error.NoFilesForPattern? ==>
              r.error.pattern == pattern && IsGlob(pattern) && glob(pattern) == []
    ensures IsGlob(pattern) && glob(pattern) == [] ==> r == Err(NoFilesForPattern(pattern))
  {
    if IsGlob(pattern) then
      if glob(pattern) == [] then Err(NoFilesForPattern(pattern)) else ProbeAll(glob(pattern), probe)
    else ProbeAll([pattern], probe)
  }

  /** All patterns in order, stopping at the first error. */
  function Expand(patterns: seq<string>, glob: string -> seq<string>, probe: string -> Probe)
    : (r: Result<seq<PurePath>, NmlzError>)
    ensures r.Ok? ==> |r.value| >= |patterns|
    ensures r.Err? ==> r.error.NoFilesForPattern? || r.error.OpenFailed?
  {
    if patterns == [] then Ok([])
    else match Expand(patterns[..|patterns| - 1], glob, probe)
      case Err(e) => Err(e)
      case Ok(files) =>
        match ExpandOne(patterns[|patterns| - 1], glob, probe)
        case Err(e) => Err(e)
        case Ok(more) => Ok(files + more)
  }

  /** An error among the first paths is the error for all of them. */
  lemma {:induction false} ProbeAllStopsAtError(paths: seq<string>, i: nat, probe: string -> Probe)
    requires i <= |paths| && ProbeAll(paths[..i], probe).Err?
    ensures ProbeAll(paths, probe) == ProbeAll(paths[..i], probe)
  {
    if i < |paths| {
      var front := paths[..|paths| - 1];
      assert front[..i] == paths[..i];
      ProbeAllStopsAtError(front, i, probe);
    } else {
      assert paths[..i] == paths;
    }
  }

  /** An error among the first patterns is the error for all of them. */
  lemma {:induction false} ExpandStopsAtError(patterns: seq<string>, i: nat,
                                              glob: string -> seq<string>, probe: string -> Probe)
    requires i <= |patterns| && Expand(patterns[..i], glob, probe).Err?
    ensures Expand(patterns, glob, probe) == Expand(patterns[..i], glob, probe)
  {
    if i < |patterns| {
      var front := patterns[..|patterns| - 1];
      assert front[..i] == patterns[..i];
      ExpandStopsAtError(front, i, glob, probe);
    } else {
      assert patterns[..i] == patterns;
    }
  }

  /** The second loop of `verify_and_prepare_args`: every pattern is expanded or taken
      literally, every file is probed, and the first failure is raised. */
  method ExpandPatterns(patterns: seq<string>, glob: string -> seq<string>, probe: string -> Probe)
    returns (r: Result<seq<PurePath>, NmlzError>)
    ensures r == Expand(patterns, glob, probe)
  {
    var inputFiles: seq<PurePath> := [];
    var i := 0;
    while i < |patterns|
      invariant 0 <= i <= |patterns|
      invariant Expand(patterns[..i], glob, probe) == Ok(inputFiles)
    {
      var pattern := patterns[i];
      ghost var done := inputFiles;
      assert patterns[..i + 1][..i] == patterns[..i] && patterns[..i + 1][i] == pattern;
      if IsGlob(pattern) {
        var hasFile := false;
        var matches := glob(pattern);
        ghost var before := inputFiles;
        var j := 0;
        while j < |matches|
          invariant 0 <= j <= |matches|
          invariant hasFile <==> j > 0
          invariant ProbeAll(matches[..j], probe).Ok?
          invariant inputFiles == before + ProbeAll(matches[..j], probe).value
        {
          assert matches[..j + 1][..j] == matches[..j];
          hasFile := true;
          var probed := probe(matches[j]);
          if probed.Unreadable? {
            ProbeAllStopsAtError(matches, j + 1, probe);
            ExpandStopsAtError(patterns, i + 1, glob, probe);
            return Err(OpenFailed(probed.shown));
          }
          inputFiles := inputFiles + [probed.canonical];
          j := j + 1;
        }
        assert matches[..j] == matches;
        if !hasFile {
          ExpandStopsAtError(patterns, i + 1, glob, probe);
          return Err(NoFilesForPattern(pattern));
        }
        assert ExpandOne(pattern, glob, probe) == Ok(inputFiles[|done|..]);
      } else {
        assert [pattern][..0] == [] && [pattern][0] == pattern;
        assert ProbeAll([], probe) == Ok([]);
        var probed := probe(pattern);
        if probed.Unreadable? {
          ExpandStopsAtError(patterns, i + 1, glob, probe);
          return Err(OpenFailed(probed.shown));
        }
        assert [] + [probed.canonical] == [probed.canonical];
        inputFiles := inputFiles + [probed.canonical];
      }
      assert ExpandOne(pattern, glob, probe).Ok?;
      assert inputFiles == done + ExpandOne(pattern, glob, probe).value;
      i := i + 1;
    }
    assert patterns[..i] == patterns;
    r := Ok(inputFiles);
  }

  /** Expansion succeeds exactly when every pattern expands on its own; so a wildcard
      pattern that matches nothing always makes it fail. */
  lemma {:induction false} ExpandOkIff(patterns: seq<string>, glob: string -> seq<string>, probe: string -> Probe)
    ensures Expand(patterns, glob, probe).Ok? <==>
            forall i :: 0 <= i < |patterns| ==> ExpandOne(patterns[i], glob, probe).Ok?
  {
    if patterns != [] {
      var front := patterns[..|patterns| - 1];
      ExpandOkIff(front, glob, probe);
      assert forall i :: 0 <= i < |front| ==> front[i] == patterns[i];
    }
  }

  /** A "no files" error names a pattern of the input that is a wildcard and that
      matched nothing. */
  lemma {:induction false} NoFilesErrorNamesPattern(patterns: seq<string>, glob: string -> seq<string>,
                                                    probe: string -> Probe)
    requires Expand(patterns, glob, probe).Err? && Expand(patterns, glob, probe).error.NoFilesForPattern?
    ensures var q := Expand(patterns, glob, probe).error.pattern;
            q in patterns && IsGlob(q) && glob(q) == []
  {
    var front := patterns[..|patterns| - 1];
    if Expand(front, glob, probe).Err? {
      NoFilesErrorNamesPattern(front, glob, probe);
    }
  }

  /** Conversely, the first wildcard pattern that matches nothing, once the patterns
      before it have expanded, is the error of the whole expansion. */
  lemma EmptyGlobStopsExpansion(patterns: seq<string>, i: nat, glob: string -> seq<string>,
                                probe: string -> Probe)
    requires i < |patterns| && Expand(patterns[..i], glob, probe).Ok?
    requires IsGlob(patterns[i]) && glob(patterns[i]) == []
    ensures Expand(patterns, glob, probe) == Err(NoFilesForPattern(patterns[i]))
  {
    assert patterns[..i + 1][..i] == patterns[..i];
    ExpandStopsAtError(patterns, i + 1, glob, probe);
  }

  // ---------------------------------------------------------------------------
  // Order-preserving deduplication: `list({k: None for k in input_files}.keys())`

  /** The keys of a dict built from `s`, in insertion order: an element is added the
      first time it is seen. */
  function Dedup<T(==)>(s: seq<T>): (r: seq<T>)
    ensures |r| <= |s|
    ensures r == [] <==> s == []
  {
    if s == [] then []
    else
      var d := Dedup(s[..|s| - 1]);
      if s[|s| - 1] in d then d else d + [s[|s| - 1]]
  }

  predicate Distinct<T(==)>(s: seq<T>)
  {
    forall i, j :: 0 <= i < j < |s| ==> s[i] != s[j]
  }

  /** Index of the first occurrence of `x` in `s`. */
  function FirstIndex<T(==)>(s: seq<T>, x: T): (k: nat)
    requires x in s
    ensures k < |s| && s[k] == x
    ensures forall j :: 0 <= j < k ==> s[j] != x
  {
    if s[0] == x then 0 else 1 + FirstIndex(s[1..], x)
  }

  /** `r` lists its elements in the order of their first occurrence in `s`. */
  predicate FirstOccurrenceOrder<T(==)>(s: seq<T>, r: seq<T>)
  {
    forall i, j :: 0 <= i < j < |r| ==> r[i] in s && r[j] in s && FirstIndex(s, r[i]) < FirstIndex(s, r[j])
  }

  lemma {:induction false} DedupSameElements<T>(s: seq<T>)
    ensures forall x :: x in Dedup(s) ==> x in s
    ensures forall x :: x in s ==> x in Dedup(s)
  {
    if s != [] {
      var front := s[..|s| - 1];
      DedupSameElements(front);
      assert s == front + [s[|s| - 1]];
    }
  }

  lemma {:induction false} DedupDistinct<T>(s: seq<T>)
    ensures Distinct(Dedup(s))
  {
    if s != [] {
      DedupDistinct(s[..|s| - 1]);
    }
  }

  lemma FirstIndexExtend<T>(p: seq<T>, x: T, y: T)
    requires y in p
    ensures FirstIndex(p + [x], y) == FirstIndex(p, y)
  {
    var k := FirstIndex(p, y);
    var k' := FirstIndex(p + [x], y);
    assert (p + [x])[k] == y;
    assert k' <= k;
    assert p[k'] == y;
  }

  lemma {:induction false} DedupKeepsFirstOccurrenceOrder<T>(s: seq<T>)
    ensures FirstOccurrenceOrder(s, Dedup(s))
  {
    if s != [] {
      var front, x := s[..|s| - 1], s[|s| - 1];
      assert s == front + [x];
      var d := Dedup(front);
      DedupKeepsFirstOccurrenceOrder(front);
      DedupSameElements(front);
      forall y | y in d ensures y in s && FirstIndex(s, y) == FirstIndex(front, y) {
        assert y in front;
        FirstIndexExtend(front, x, y);
      }
      if x !in d {
        assert forall k :: 0 <= k < |front| ==> s[k] == front[k];
        assert FirstIndex(s, x) == |front|;
        var r := d + [x];
        forall i, j | 0 <= i < j < |r|
          ensures r[i] in s && r[j] in s && FirstIndex(s, r[i]) < FirstIndex(s, r[j])
        {
          if j < |d| {
            assert r[i] == d[i] && r[j] == d[j];
          } else {
            assert r[i] == d[i] && r[j] == x;
          }
        }
      }
    }
  }

  /** A list without repetitions is its own deduplication. */
  lemma {:induction false} DedupOfDistinct<T>(s: seq<T>)
    requires Distinct(s)
    ensures Dedup(s) == s
  {
    if s != [] {
      var front := s[..|s| - 1];
      DedupOfDistinct(front);
      assert s[|s| - 1] !in front;
      assert front + [s[|s| - 1]] == s;
    }
  }

  /** The dedup of line 173: `keys` and `seen` are the dict's keys in order and as a set. */
  method DedupFiles<T(==)>(files: seq<T>) returns (unique: seq<T>)
    ensures unique == Dedup(files)
    ensures Distinct(unique)
    ensures forall x :: x in unique <==> x in files
    ensures FirstOccurrenceOrder(files, unique)
  {
    var keys: seq<T> := [];
    var seen: set<T> := {};
    var i := 0;
    while i < |files|
      invariant 0 <= i <= |files|
      invariant keys == Dedup(files[..i])
      invariant forall x :: x in seen <==> x in keys
    {
      assert files[..i + 1][..i] == files[..i];
      var k := files[i];
      if k !in seen {
        keys := keys + [k];
        seen := seen + {k};
      }
      i := i + 1;
    }
    assert files[..i] == files;
    unique := keys;
    DedupDistinct(files);
    DedupSameElements(files);
    DedupKeepsFirstOccurrenceOrder(files);
  }
}

=== FILE: presets.dfy ===
/** The fixed preset table and the `letters digits?` split of a preset token
    (`PRESET_INFO` and `RE_PRESET` in ffmpeg_nmlz/__main__.py). */
module Presets {
  import opened Wrappers

  /** Encoder, output file extension and bitrate; `None` leaves the bitrate to the encoder. */
  datatype FormatConfig = FormatConfig(encoder: string, extension: string, bitrate: Option<string>)

  /** Preset name to format. */
  const PresetInfo: map<string, FormatConfig> := map[
    "m4a"  := FormatConfig("libfdk_aac", "m4a", Some("128K")),
    "aac"  := FormatConfig("libfdk_aac", "m4a", Some("128K")),
    "mp3"  := FormatConfig("libmp3lame", "mp3", Some("192K")),
    "opus" := FormatConfig("libopus", "opus", Some("128K")),
    "ogg"  := FormatConfig("libvorbis", "ogg", Some("160K")),
    "wav"  := FormatConfig("pcm_s16le", "wav", None),
    "flac" := FormatConfig("flac", "flac", None)
  ]

  /** The table has seven presets. Only `wav` and `flac` leave the bitrate to the
      encoder, and every extension is the preset's own name except that `aac` writes
      `m4a`. */
  lemma PresetTable()
    ensures PresetInfo.Keys == {"m4a", "aac", "mp3", "opus", "ogg", "wav", "flac"}
    ensures forall name :: name in PresetInfo ==>
      (PresetInfo[name].bitrate.None? <==> name == "wav" || name == "flac")
    ensures forall name :: name in PresetInfo ==>
      PresetInfo[name].extension == (if name == "aac" then "m4a" else name)
  {
  }

  /** `mp3` and `m4a` are the only preset names that are not all letters. */
  lemma PresetNames()
    ensures forall name :: name in PresetInfo ==>
      (AllLetters(name) <==> name != "mp3" && name != "m4a")
  {
    assert !IsLetter("mp3"[2]) && !IsLetter("m4a"[1]);
  }

  /** `[a-zA-Z]` */
  predicate IsLetter(c: char)
  {
    'a' <= c <= 'z' || 'A' <= c <= 'Z'
  }

  /** `\d`, on ASCII digits */
  predicate IsDigit(c: char)
  {
    '0' <= c <= '9'
  }

  predicate AllLetters(s: string)
  {
    forall i :: 0 <= i < |s| ==> IsLetter(s[i])
  }

  predicate AllDigits(s: string)
  {
    forall i :: 0 <= i < |s| ==> IsDigit(s[i])
  }

  /** Length of the longest run of letters at the front of `s`: what the greedy
      `([a-zA-Z]+)` group takes. */
  function LetterRun(s: string): (n: nat)
    ensures n <= |s|
    ensures AllLetters(s[..n])
    ensures n < |s| ==> !IsLetter(s[n])
  {
    if s != [] && IsLetter(s[0]) then
      var k := LetterRun(s[1..]);
      assert s[..k + 1] == [s[0]] + s[1..][..k];
      1 + k
    else 0
  }

  /** The two groups of a full match of `([a-zA-Z]+)(\d+)?`; `digits` is `None` when
      the optional group did not take part. */
  datatype PresetMatch = PresetMatch(name: string, digits: Option<string>)

  /** `RE_PRESET.fullmatch(token)`: a full match splits the token into a non-empty run
      of letters followed by a possibly absent, never empty, run of digits. */
  function MatchPreset(token: string): (r: Option<PresetMatch>)
    ensures r.Some? ==>
      && r.value.name != "" && AllLetters(r.value.name)
      && (r.value.digits.Some? ==> r.value.digits.value != "" && AllDigits(r.value.digits.value))
      && token == r.value.name + GroupText(r.value.digits)
  {
    var k := LetterRun(token);
    assert token == token[..k] + token[k..];
    if k > 0 && AllDigits(token[k..]) then
      Some(PresetMatch(token[..k], if k == |token| then None else Some(token[k..])))
    else None
  }

  /** The text a group matched, "" for a group that did not take part. */
  function GroupText(g: Option<string>): string
  {
    if g.Some? then g.value else ""
  }

  /** Every token of the form letters + digits fully matches, and the greedy letter
      group takes exactly the letters. */
  lemma MatchComplete(letters: string, digits: string)
    requires letters != "" && AllLetters(letters) && AllDigits(digits)
    ensures MatchPreset(letters + digits)
         == Some(PresetMatch(letters, if digits == "" then None else Some(digits)))
  {
    var t := letters + digits;
    LetterRunStopsAtDigits(letters, digits);
    assert t[..|letters|] == letters && t[|letters|..] == digits;
  }

  lemma {:induction false} LetterRunStopsAtDigits(letters: string, digits: string)
    requires AllLetters(letters) && AllDigits(digits)
    ensures LetterRun(letters + digits) == |letters|
  {
    if letters != "" {
      assert (letters + digits)[1..] == letters[1..] + digits;
      LetterRunStopsAtDigits(letters[1..], digits);
    } else {
      assert letters + digits == digits;
    }
  }

  /** A bitrate override: digits `d` become `d + "K"`; no digits keep the table's. */
  function WithBitrate(c: FormatConfig, digits: Option<string>): FormatConfig
  {
    if digits.Some? then c.(bitrate := Some(digits.value + "K")) else c
  }

  /** The format a token selects when it is a preset token, `None` for a file pattern:
      a selection keeps the encoder and extension of the table row its letters name. */
  function Selection(token: string): (r: Option<FormatConfig>)
    ensures r.Some? ==> MatchPreset(token).Some? && MatchPreset(token).value.name in PresetInfo
    ensures r.Some? ==>
      var row := PresetInfo[MatchPreset(token).value.name];
      r.value.encoder == row.encoder && r.value.extension == row.extension
    ensures MatchPreset(token).Some? && MatchPreset(token).value.name in PresetInfo ==> r.Some?
  {
    match MatchPreset(token)
    case None => None
    case Some(m) => if m.name in PresetInfo then Some(WithBitrate(PresetInfo[m.name], m.digits)) else None
  }

  predicate IsPreset(token: string)
  {
    Selection(token).Some?
  }

  /** A preset name followed by digits `d` selects that preset with bitrate `d + "K"`,
      also for the presets whose table bitrate is `None`. */
  lemma PresetWithDigits(name: string, digits: string)
    requires name in PresetInfo && AllLetters(name)
    requires digits != "" && AllDigits(digits)
    ensures Selection(name + digits)
         == Some(FormatConfig(PresetInfo[name].encoder, PresetInfo[name].extension, Some(digits + "K")))
  {
    MatchComplete(name, digits);
  }

  /** A bare preset name selects the table entry unchanged. */
  lemma PresetWithoutDigits(name: string)
    requires name in PresetInfo && AllLetters(name)
    ensures Selection(name) == Some(PresetInfo[name])
  {
    MatchComplete(name, "");
    assert name + "" == name;
  }

  /** A token is a preset token exactly when it is a table key made of letters,
      optionally followed by digits. */
  lemma IsPresetIff(token: string)
    ensures IsPreset(token) <==>
      exists k :: 0 < k <= |token| && token[..k] in PresetInfo && AllLetters(token[..k]) && AllDigits(token[k..])
  {
    if IsPreset(token) {
      var m := MatchPreset(token).value;
      var k := |m.name|;
      assert token[..k] == m.name && token[k..] == GroupText(m.digits);
    }
    if exists k :: 0 < k <= |token| && token[..k] in PresetInfo && AllLetters(token[..k]) && AllDigits(token[k..]) {
      var k :| 0 < k <= |token| && token[..k] in PresetInfo && AllLetters(token[..k]) && AllDigits(token[k..]);
      assert token == token[..k] + token[k..];
      MatchComplete(token[..k], token[k..]);
    }
  }

  /** The letter group never contains a digit, so the `mp3` and `m4a` entries of the
      table can never be selected: no token yields the `libmp3lame` encoder. */
  lemma Mp3AndM4aUnreachable(token: string)
    ensures MatchPreset(token).Some? ==>
      MatchPreset(token).value.name != "mp3" && MatchPreset(token).value.name != "m4a"
    ensures Selection(token).Some? ==> Selection(token).value.encoder != "libmp3lame"
  {
    if MatchPreset(token).Some? {
      assert !IsLetter("mp3"[2]) && !IsLetter("m4a"[1]);
    }
  }

  /** `mp3`, with or without a bitrate (`mp3320` asks for MP3 at 320K), splits as `mp`
      followed by digits, so it is no preset token but a file pattern. */
  lemma Mp3IsAPattern(digits: string)
    requires AllDigits(digits)
    ensures MatchPreset("mp3" + digits) == Some(PresetMatch("mp", Some("3" + digits)))
    ensures !IsPreset("mp3" + digits)
  {
    assert AllDigits("3" + digits) by {
      assert forall i | 0 <= i < |digits| :: ("3" + digits)[i + 1] == digits[i];
    }
    MatchComplete("mp", "3" + digits);
    assert "mp3" + digits == "mp" + ("3" + digits);
  }

  /** `m4a` does not fully match at all, so it is a file pattern. */
  lemma M4aIsAPattern()
    ensures MatchPreset("m4a") == None && !IsPreset("m4a")
  {
    var t := "m4a";
    assert LetterRun(t[1..]) == 0;
    assert LetterRun(t) == 1;
    assert t[1..][1] == 'a';
  }

  /** `aac320` selects AAC with bitrate 320K. */
  lemma Aac320Example()
    ensures Selection("aac320") == Some(FormatConfig("libfdk_aac", "m4a", Some("320K")))
  {
    PresetWithDigits("aac", "320");
    assert "aac" + "320" == "aac320";
    assert "320" + "K" == "320K";
  }
}

=== FILE: pure_paths.dfy ===
/** The part of Python's `pathlib` that the program relies on: parsing a path string into
    parts, rendering it with `str()`, `name`, `parent`, `stem`, `suffix`, joining with `/`,
    and a lexical `resolve(strict=False)`. */
module PurePaths {

  /** A parsed path: whether it starts at the root, and its non-empty parts. */
  datatype PurePath = PurePath(absolute: bool, parts: seq<string>)

  /** The parts pathlib keeps after parsing: none is empty, `.` or holds a `/`. */
  predicate WellFormed(p: PurePath)
  {
    forall i :: 0 <= i < |p.parts| ==> p.parts[i] != "" && p.parts[i] != "." && '/' !in p.parts[i]
  }

  predicate EndsWith(s: string, tail: string)
  {
    |tail| <= |s| && s[|s| - |tail|..] == tail
  }

  /** `s.split('/')`: the pieces between slashes, empty ones included. */
  function Split(s: string): (r: seq<string>)
    ensures |r| >= 1
    ensures forall i :: 0 <= i < |r| ==> '/' !in r[i]
  {
    if s == [] then [""]
    else
      var rest := Split(s[1..]);
      if s[0] == '/' then [""] + rest else [[s[0]] + rest[0]] + rest[1..]
  }

  /** The pieces pathlib keeps: empty pieces (from repeated slashes) and `.` are dropped. */
  function KeptParts(pieces: seq<string>): (r: seq<string>)
    ensures forall i :: 0 <= i < |r| ==> r[i] != "" && r[i] != "."
    ensures forall i :: 0 <= i < |r| ==> r[i] in pieces
  {
    if pieces == [] then []
    else
      var rest := KeptParts(pieces[1..]);
      if pieces[0] == "" || pieces[0] == "." then rest else [pieces[0]] + rest
  }

  /** `Path(s)`: every part it keeps is well formed. */
  function Parse(s: string): (r: PurePath)
    ensures WellFormed(r)
  {
    PurePath(|s| > 0 && s[0] == '/', KeptParts(Split(s)))
  }

  function JoinParts(parts: seq<string>): string
  {
    if parts == [] then ""
    else if |parts| == 1 then parts[0]
    else JoinParts(parts[..|parts| - 1]) + "/" + parts[|parts| - 1]
  }

  /** `str(p)`: an absolute path renders with a leading `/`. */
  function Str(p: PurePath): (r: string)
    ensures p.absolute ==> |r| >= 1 && r[0] == '/'
  {
    if p.absolute then "/" + JoinParts(p.parts)
    else if p.parts == [] then "."
    else JoinParts(p.parts)
  }

  /** `p.name`: the last part, or "" for the root and for `.`. */
  function Name(p: PurePath): string
  {
    if p.parts == [] then "" else p.parts[|p.parts| - 1]
  }

  /** `p.parent`: the root and `.` are their own parents. */
  function Parent(p: PurePath): PurePath
  {
    if p.parts == [] then p else PurePath(p.absolute, p.parts[..|p.parts| - 1])
  }

  /** `p / name` for a single name. */
  function Child(p: PurePath, name: string): (r: PurePath)
    ensures Name(r) == name && Parent(r) == p
  {
    PurePath(p.absolute, p.parts + [name])
  }

  /** `p.resolve(strict=False)` with no symbolic links and no `..` parts: a relative path
      is put under the absolute working directory whose parts are `cwd`. */
  function Resolve(cwd: seq<string>, p: PurePath): (r: PurePath)
    ensures r.absolute
    ensures p.absolute ==> r == p
    ensures p.parts != [] ==> Name(r) == Name(p)
  {
    if p.absolute then p else PurePath(true, cwd + p.parts)
  }

  /** `s.rfind(c)`: the last index of `c`, or -1. */
  function RFind(s: string, c: char): (r: int)
    ensures -1 <= r < |s|
    ensures r >= 0 ==> s[r] == c
    ensures forall j :: r < j < |s| ==> s[j] != c
  {
    if s == [] then -1
    else if s[|s| - 1] == c then |s| - 1
    else RFind(s[..|s| - 1], c)
  }

  /** `PurePath.suffix` of a name: from its last dot, when that dot is neither the first
      nor the last character; otherwise "". */
  function Suffix(name: string): (r: string)
    ensures |r| <= |name|
    ensures r == "" || r[0] == '.'
  {
    var i := RFind(name, '.');
    if 0 < i < |name| - 1 then name[i..] else ""
  }

  /** `PurePath.stem` of a name: what is left once the suffix is taken off. */
  function Stem(name: string): (r: string)
    ensures |r| <= |name|
    ensures name[..|r|] == r
  {
    var i := RFind(name, '.');
    if 0 < i < |name| - 1 then name[..i] else name
  }

  /** A name is its stem followed by its suffix; the stem of a name is not empty; the
      suffix is empty or a dot followed by at least one character and no other dot. */
  lemma StemAndSuffix(name: string)
    ensures Stem(name) + Suffix(name) == name
    ensures name != "" ==> Stem(name) != ""
    ensures EndsWith(name, Suffix(name))
    ensures Suffix(name) != "" ==> |Suffix(name)| >= 2 && Suffix(name)[0] == '.' && '.' !in Suffix(name)[1..]
  {
  }

  /** A name made of a non-empty base, a dot and a non-empty extension without a dot
      splits back into that base and "." + extension. */
  lemma SplitExtension(base: string, ext: string)
    requires base != "" && ext != "" && '.' !in ext
    ensures Suffix(base + "." + ext) == "." + ext
    ensures Stem(base + "." + ext) == base
  {
    var name := base + "." + ext;
    var i := RFind(name, '.');
    assert name[|base|] == '.';
    assert forall j :: |base| < j < |name| ==> name[j] == ext[j - |base| - 1];
    assert i == |base|;
    assert name[i..] == "." + ext;
  }

  /** The rendered path ends with its name. */
  lemma StrEndsWithName(p: PurePath)
    requires p.parts != []
    ensures EndsWith(Str(p), Name(p))
  {
  }

  lemma EndsWithTrans(s: string, mid: string, tail: string)
    requires EndsWith(s, mid) && EndsWith(mid, tail)
    ensures EndsWith(s, tail)
  {
  }

  /** The text that `Str` puts in front of a child's name. */
  function ChildPrefix(p: PurePath): string
  {
    if p.absolute then (if p.parts == [] then "/" else "/" + JoinParts(p.parts) + "/")
    else (if p.parts == [] then "" else JoinParts(p.parts) + "/")
  }

  lemma StrChild(p: PurePath, name: string)
    ensures Str(Child(p, name)) == ChildPrefix(p) + name
  {
  }

  /** Two children of one directory with different names render differently. */
  lemma StrChildDistinct(p: PurePath, a: string, b: string)
    requires a != b
    ensures Str(Child(p, a)) != Str(Child(p, b))
  {
    StrChild(p, a);
    StrChild(p, b);
    var pre := ChildPrefix(p);
    assert a == (pre + a)[|pre|..];
    assert b == (pre + b)[|pre|..];
  }

  /** A path with at least one part is the child of its parent named by its name. */
  lemma ChildOfParent(p: PurePath)
    requires p.parts != []
    ensures Child(Parent(p), Name(p)) == p
  {
  }

  /** A string without a slash splits into itself. */
  lemma {:induction false} SplitNoSlash(s: string)
    requires '/' !in s
    ensures Split(s) == [s]
  {
    if s != [] {
      assert '/' !in s[1..] by {
        forall j | 0 <= j < |s[1..]| ensures s[1..][j] != '/' { assert s[1..][j] == s[j + 1]; }
      }
      SplitNoSlash(s[1..]);
      assert [s[0]] + s[1..] == s;
    }
  }

  /** Splitting at a slash splits the two sides independently. */
  lemma {:induction false} SplitAtSlash(a: string, b: string)
    ensures Split(a + "/" + b) == Split(a) + Split(b)
  {
    if a != [] {
      assert (a + "/" + b)[1..] == a[1..] + "/" + b;
      SplitAtSlash(a[1..], b);
    } else {
      assert a + "/" + b == "/" + b;
      assert ("/" + b)[1..] == b;
    }
  }

  /** Joining parts without a slash and splitting again gives the parts back. */
  lemma {:induction false} SplitJoinParts(parts: seq<string>)
    requires parts != [] && forall i :: 0 <= i < |parts| ==> '/' !in parts[i]
    ensures Split(JoinParts(parts)) == parts
  {
    var last := parts[|parts| - 1];
    SplitNoSlash(last);
    if |parts| > 1 {
      var front := parts[..|parts| - 1];
      SplitJoinParts(front);
      SplitAtSlash(JoinParts(front), last);
      assert front + [last] == parts;
    }
  }

  /** Well-formed parts are all kept. */
  lemma {:induction false} KeptPartsOfWellFormed(parts: seq<string>)
    requires forall i :: 0 <= i < |parts| ==> parts[i] != "" && parts[i] != "."
    ensures KeptParts(parts) == parts
  {
    if parts != [] {
      KeptPartsOfWellFormed(parts[1..]);
      assert [parts[0]] + parts[1..] == parts;
    }
  }

  /** `Path(str(p)) == p` for every well-formed path: rendering loses nothing. */
  lemma ParseStr(p: PurePath)
    requires WellFormed(p)
    ensures Parse(Str(p)) == p
  {
    var s := Str(p);
    if p.parts == [] {
      if p.absolute {
        assert s == "/" && Split(s) == [""] + Split("");
        assert KeptParts(["", ""]) == KeptParts([""]) == [];
      } else {
        assert s == "." && '/' !in s;
        SplitNoSlash(s);
      }
    } else {
      var j := JoinParts(p.parts);
      SplitJoinParts(p.parts);
      KeptPartsOfWellFormed(p.parts);
      if p.absolute {
        assert s[1..] == j;
        assert Split(s) == [""] + p.parts;
        assert KeptParts(Split(s)) == KeptParts(p.parts);
      } else {
        assert Split(j)[0] != "";
        assert j[0] != '/';
      }
    }
  }
}

=== FILE: wrappers.dfy ===
/** Optional values and results with an error, as the program's `None` and raised errors. */
module Wrappers {

  datatype Option<+T> = None | Some(value: T)

  datatype Result<+R, +E> = Ok(value: R) | Err(error: E)
}
